=== FILE: README.md ===
# VenkysAI chat core, modelled in Dafny

VenkysAI is a browser chat application. A signed-in user keeps a list of chat
sessions. Each message they send is appended to the current session and
replayed, with a system prompt in front, to a language-model provider. The
reply, or a fixed apology when anything fails, is appended after it. On
success, the finished session is saved and upserted into the in-memory session
list. Around
this sit:

- a client-local session store, one map from user id to that user's sessions;
- an edge proxy that checks a shared secret and forwards the completion request
  with a server-held key;
- registration and login with ordered validation and error-code-to-message
  mappings.

The model is purely functional. Sessions and messages are immutable datatypes.
Every foreign call (Firebase Auth, Firestore, the OpenAI SDK, `fetch`,
`localStorage`) becomes an outcome parameter. Identifiers and clock readings
are abstract values supplied by the caller.

| file | module | models |
|---|---|---|
| `wrappers.dfy` | `Wrappers` | `Option` (absent JavaScript values), `Result` (thrown errors) |
| `text.dfy` | `Text` | `String.prototype.trim` and ASCII `toLowerCase` |
| `completion.dfy` | `Completion` | `src/services/openai.ts`: request shape, reply fallback, failure |
| `sessions.dfy` | `Sessions` | session data model and the pure updates of `src/hooks/useChat.ts` |
| `chat.dfy` | `Chat` | the `useChat` hook: `createNewSession`, the user effect, `sendMessage` |
| `local_store.dfy` | `LocalStore` | `src/services/localStorage.ts` |
| `proxy.dfy` | `Proxy` | `cloudflare-worker/index.ts` |
| `auth.dfy` | `Auth` | `src/services/auth.ts` |

Three facts about the code shape the model:

- On the failure path of `sendMessage` the apology turn is not saved; only the
  success path calls `saveChatSession` (src/hooks/useChat.ts:90, 100-117).
- The proxy relays the upstream JSON with the default status 200, whatever
  status upstream answered (cloudflare-worker/index.ts:42-45).
- No code in the application loads, stores or changes the system prompt, so
  it is a parameter of `Chat.SendMessage`.

## Model

| member | source | states |
|---|---|---|
| Text.TrimStart | src/components/ChatInterface.tsx:33-34 | leading white space is dropped: the result is a suffix, everything dropped is white space, the result does not start with white space |
| Text.TrimEnd | src/components/ChatInterface.tsx:33-34 | trailing white space is dropped: the result is a prefix, everything dropped is white space, the result does not end with white space |
| Text.Trim | src/components/ChatInterface.tsx:33-34 | never longer than its input; what it returns is characterised by TrimIsTrimmed and TrimIsInfix |
| Text.TrimIsTrimmed | src/components/ChatInterface.tsx:33-34 | whatever `trim` returns starts and ends with a non-white-space character, or is empty |
| Text.TrimIsInfix | src/components/ChatInterface.tsx:33-34 | `trim` returns the contiguous piece of the input right after its leading white space, followed only by white space |
| Text.TrimIdempotent | src/components/ChatInterface.tsx:33-34 | trimming twice is trimming once |
| Text.ToLower | src/services/auth.ts:32 | lower-casing keeps the length and lowers each ASCII letter in place |
| Text.ToLowerIdempotent | src/services/auth.ts:32 | lower-casing a lower-cased name changes nothing |
| Text.ToLowerEqualIffEqualIgnoringCase | src/services/auth.ts:32 | two names get the same key exactly when they differ only in the case of ASCII letters |
| Chat.SubmitText | src/components/ChatInterface.tsx:33-34 | the chat input sends text exactly when it is not blank, and what it sends is trimmed and non-empty, which is the precondition of `sendMessage` |
| Completion.ToWire | src/services/openai.ts:9-19 | the history goes on the wire with the same length, order, roles and content |
| Completion.BuildRequest | src/services/openai.ts:13-21 | the system entry with the prompt first, then exactly the given messages in order; model `gpt-3.5-turbo`, `max_tokens` 1000 |
| Completion.BuildRequestRoundTrip | src/services/openai.ts:13-20 | prompt and history can both be read back from the request |
| Completion.FirstContent | src/services/openai.ts:25 | `choices[0]?.message?.content`: no choices or no message means no content; a first message's content, present or absent, is exactly what is returned |
| Completion.ReplyIsProviderText | src/services/openai.ts:25 | a completion whose first choice carries non-empty text is answered with exactly that text |
| Completion.ReplyText | src/services/openai.ts:25 | the reply is never empty; it is the fallback exactly when the first choice's content is absent, empty or the fallback text itself; otherwise it is that content |
| Completion.GenerateAIResponse | src/services/openai.ts:8-30 | the request is the system prompt plus the history (length + 1); a completion yields exactly `content \|\| fallback`; it fails exactly when the provider threw, always with the one fixed message |
| Sessions.NewSession | src/hooks/useChat.ts:31-38 | a new session has the given id, title "New Chat", no messages |
| Sessions.DeriveTitle | src/hooks/useChat.ts:57 | at most 33 characters; the whole content when it has at most 30, otherwise its first 30 followed by "..." |
| Sessions.AppendUserTurn | src/hooks/useChat.ts:47-59 | the user turn is appended last with all earlier turns unchanged and in order; the title is derived iff the session had no messages, otherwise kept |
| Sessions.AppendReply | src/hooks/useChat.ts:74-85 | exactly one turn is appended last; earlier turns, id and title are kept |
| Sessions.Transcript | src/hooks/useChat.ts:67-70 | one history entry per message, same order and content; role `user` exactly for sender `user`, `assistant` for every other sender |
| Sessions.TranscriptAppend | src/hooks/useChat.ts:67-70 | appending a message appends exactly its entry to the transcript |
| Sessions.ReplaceById | src/hooks/useChat.ts:95 | every entry with the session's id is replaced, all others kept at their positions |
| Sessions.UpsertSession | src/hooks/useChat.ts:93-98 | an existing id: same length, those entries replaced, others unchanged; a new id: the session prepended, length + 1 |
| Sessions.UpsertKeepsIdsUnique | src/hooks/useChat.ts:93-98 | the list update keeps session ids unique |
| Sessions.ReplayKeepsHistoryAndTitle | src/hooks/useChat.ts:54-58 | over any sequence of appends earlier turns are never changed; the title of a session that started empty is fixed by its first user turn and never changes afterwards |
| Chat.CreateNewSession | src/hooks/useChat.ts:31-42 | the new empty "New Chat" session becomes current and the list is untouched |
| Chat.OnUserChange | src/hooks/useChat.ts:11-29 | no user clears list and current session; a user gets the stored list, or the empty list when the read failed |
| Chat.ReplyCall | src/hooks/useChat.ts:67-72 | the completion request carries the system prompt first, then exactly the wire form of the updated session's transcript: each turn in order with its content and role `user` or `assistant`; the reply is the provider's text or the fixed failure |
| Chat.ReplyCallAsWritten | src/hooks/useChat.ts:72 | called with one argument, the request's system entry has no content |
| Chat.Converse | src/hooks/useChat.ts:47-117 | the session ends with the user turn and one `ai` turn appended, titled from the user turn when it was empty; the fixed model with the fixed budget is sent the prompt as its system entry, then the conversation up to the user turn; the last turn is the reply and is saved when the provider answered and the save worked, otherwise it is the apology; nothing is saved when the provider threw |
| Chat.SendMessage | src/hooks/useChat.ts:44-121 | no session or no user: nothing happens; otherwise exactly two turns are appended (the user turn, then an `ai` turn) and the fixed model with the fixed budget is sent the prompt as its system entry followed by the whole conversation up to and including the user turn; on success the reply is the last turn, the session is saved and upserted; on provider or save failure the apology is the last turn and the list is unchanged |
| Chat.SendMessageAsWritten | src/hooks/useChat.ts:44-57 | as written, once past the guard the call rejects and changes nothing |
| Chat.SessionDefectWitness | src/hooks/useChat.ts:55-57 | a concrete call where the as-written step leaves the session empty and the corrected one appends two turns |
| Chat.SystemPromptDefectWitness | src/hooks/useChat.ts:72 | a concrete history where the as-written request has no system prompt and the corrected one has it |
| Chat.SendKeepsOtherSessions | src/hooks/useChat.ts:93-98 | a send never drops a session from the list other than one replaced by the finished session |
| LocalStore.FindIndex | src/services/localStorage.ts:10 | the first index holding the id, or none exactly when no entry has it |
| LocalStore.AllSessions | src/services/localStorage.ts:57-64 | a missing or unparseable blob reads as the empty map, a stored map as itself, and a malformed document as no usable map |
| LocalStore.GetUserChatSessions | src/services/localStorage.ts:24-43 | a missing, unparseable or malformed blob (the last through the `catch`), or a user without an entry, reads as no sessions; otherwise the user's stored list, in its stored order |
| LocalStore.SaveInList | src/services/localStorage.ts:10-15 | the saved session is in the list, which keeps its length when the id was there and grows by one otherwise; characterised by SaveReplacesInPlace and SavePrepends |
| LocalStore.Save | src/services/localStorage.ts:5-17 | the user gets an entry holding the session; every other user's entry is unchanged |
| LocalStore.Delete | src/services/localStorage.ts:45-50 | the user gets an entry holding exactly the old sessions with another id; every other user's entry is unchanged |
| LocalStore.SaveChatSession | src/services/localStorage.ts:5-22 | a failed write, or a malformed blob whose access throws, leaves the blob as it was; otherwise the session is stored under the user |
| LocalStore.DeleteChatSession | src/services/localStorage.ts:45-55 | a failed write, or a malformed blob whose access throws, leaves the blob as it was; otherwise exactly the user's readable sessions with another id are stored |
| LocalStore.Without | src/services/localStorage.ts:50 | the filter keeps exactly the entries whose id differs, never grows the list; order and duplicates are fixed by WithoutConcat and WithoutSingle |
| LocalStore.WithoutConcat | src/services/localStorage.ts:50 | deleting from a joined list is deleting from each part, joined in the same order, so kept sessions keep their relative order |
| LocalStore.WithoutSingle | src/services/localStorage.ts:50 | a single session is dropped exactly when it has the id, and kept otherwise |
| LocalStore.SaveReplacesInPlace | src/services/localStorage.ts:10-12 | an existing id is overwritten at its first index; length and all other entries unchanged |
| LocalStore.SavePrepends | src/services/localStorage.ts:13-15 | a new id is put at index 0 in front of the old list |
| LocalStore.WritesAreFramed | src/services/localStorage.ts:17-18 | save and delete leave every other user's entry and presence unchanged |
| LocalStore.ReadAfterSave | src/services/localStorage.ts:24-38 | on any blob but a malformed one, the list read back after a save is exactly the old list with the save applied, in stored order; so the session is there and the list keeps its length or grows by one |
| LocalStore.MalformedBlobIsInert | src/services/localStorage.ts:19-21 | a malformed blob reads as `[]` for every user (the `catch` at lines 39-42), and every save or delete leaves it as it was (the `catch` blocks at 19-21 and 52-54) |
| LocalStore.ReadAfterDelete | src/services/localStorage.ts:45-55 | the list read back after a delete is exactly the old list without that id, in stored order |
| LocalStore.FailedWriteChangesNothing | src/services/localStorage.ts:18-21 | a write that throws is swallowed and the stored blob is unchanged |
| LocalStore.SaveOverUnparseableBlob | src/services/localStorage.ts:57-64 | saving over an unparseable blob keeps only the writer's session; other users read as empty |
| LocalStore.WithoutAbsentIsIdentity | src/services/localStorage.ts:50 | deleting an id nobody has leaves the list exactly as it was, order included |
| LocalStore.WithoutHasNoId | src/services/localStorage.ts:50 | after a delete no entry has the deleted id |
| LocalStore.DeleteIdempotent | src/services/localStorage.ts:45-51 | deleting the same id twice is deleting it once |
| LocalStore.DeleteUndoesNewSave | src/services/localStorage.ts:45-51 | deleting a session just saved under a new id restores the user's previous list |
| LocalStore.SaveKeepsIdsUnique | src/services/localStorage.ts:10-15 | saving keeps a user's session ids unique |
| LocalStore.UpsertAgreesWithSave | src/services/localStorage.ts:10-15 | on a list with unique ids, the hook's upsert and the store's save give the same list |
| Proxy.Decide | cloudflare-worker/index.ts:7-38 | 405 for a non-POST, then 401 for a missing or wrong secret, then 500 without a parseable `messages` array; otherwise the upstream request with the system prompt, the caller's messages and the server key |
| Proxy.Relay | cloudflare-worker/index.ts:42-49 | 200 with the upstream JSON exactly when upstream answered with parseable JSON, whatever its status; otherwise 500 "Internal Server Error" |
| Proxy.Handle | cloudflare-worker/index.ts:6-50 | 405 for a non-POST and 401 for a wrong secret, both with no upstream call; forwarded exactly for an authorized POST with `messages`, as `BuildRequest(systemPrompt, messages)` to the provider with `Bearer` and the server key; then 200 with the upstream JSON, or 500 |
| Proxy.UpstreamCredentialIgnoresCaller | cloudflare-worker/index.ts:13-28 | a forwarded request carries `Bearer` and the server key upstream, which differs from the caller's header whenever the server key is not the shared secret |
| Proxy.StatusesAreFixed | cloudflare-worker/index.ts:6-49 | the handler answers only 200, 401, 405 or 500 |
| Proxy.ProxyMatchesDirectClient | cloudflare-worker/index.ts:30-37 | for the same history and prompt, the proxy sends upstream exactly the request the browser client builds |
| Auth.UsernameKey | src/services/auth.ts:32 | a key has the name's length, each character is the name's character up to ASCII case, and it holds no upper-case ASCII letter |
| Auth.UsernameKeyIdentifiesCase | src/services/auth.ts:32 | two names share a key exactly when they are equal up to ASCII case |
| Auth.CheckUsernameAvailability | src/services/auth.ts:30-38 | a name is available iff its lower-cased key is not reserved; a failed lookup counts as taken |
| Auth.RegistrationMessage | src/services/auth.ts:85-92 | always one of the three specific messages or "Registration failed"; characterised by RegistrationMessageCases |
| Auth.LoginMessage | src/services/auth.ts:125-134 | always one of the four specific messages or "Login failed"; characterised by LoginMessageCases |
| Auth.RegistrationMessageCases | src/services/auth.ts:85-92 | the three named codes get their messages; "Registration failed" exactly for every other code |
| Auth.LoginMessageCases | src/services/auth.ts:125-134 | the four named codes get their messages; "Login failed" exactly for every other code |
| Auth.RegisterUser | src/services/auth.ts:41-96 | username length, then password length, then availability, each with its fixed message and no account created; then a rejected account creation (no account), a thrown profile write (account, no profile) or a thrown reservation write (account and profile, no reservation), each reported as `RegistrationMessage(code)`; success iff all checks and writes succeed, reserving the lower-cased name |
| Auth.ApplyReservation | src/services/auth.ts:75-79 | a successful registration adds its lower-cased key, owned by the new uid; every other reservation is kept |
| Auth.ReservationIsCaseInsensitive | src/services/auth.ts:76-79 | after a successful registration, any name equal up to ASCII case is unavailable and its registration fails as taken |
| Auth.ReservationTakesOnlyItsName | src/services/auth.ts:76-79 | after a successful registration a name is unavailable exactly when it equals the registered one up to ASCII case or was unavailable before |
| Auth.LoginUser | src/services/auth.ts:99-138 | sign-in errors go through the login mapping; a missing profile gives "User profile not found"; success iff sign-in and profile read both succeed |
| Auth.FailedRegistrationCanLeaveAccount | src/services/auth.ts:60-94 | a registration whose reservation write throws reports failure although the account was created |

## Left out

- Presentation (`LoginPage.tsx`, `Sidebar.tsx`, `App.tsx`, the rest of `ChatInterface.tsx`) and `useAuth.ts`: rendering and React state wiring, no decisions.
- Firebase configuration (`src/config/firebase.ts`): constants and SDK start-up.
- Firestore wrapper (`src/services/firestore.ts`): its save rethrows, which is the `saveOk` parameter of `Chat.SendMessage`. Its read returns `[]` on error, which is the `fetched == None` case of `Chat.OnUserChange`. The query ordering by `updatedAt` is the store's business.
- Identity and time: `Date.now()`/`Math.random()` ids and `Date`/`Timestamp` conversions. Ids and instants are abstract parameters. The separate clock reads of one `sendMessage` are collapsed to two instants. The date re-hydration in `getUserChatSessions` is the identity.
- JSON serialisation and parsing are identities. A blob is modelled as absent, as the user-to-sessions map it parses to, as unparseable, or as malformed (parseable, but accessing it throws).
- `LocalStore.GetUserChatSessions`: a malformed blob stands for a document on which every user's access throws, such as `null`. A document that is an object with a non-list entry under some user, such as `{"u": 5}`, throws only for that user; this per-user case is not modelled.
- `temperature: 0.7`: a float, omitted from the request model.
- React asynchrony: the intermediate `setCurrentSession` calls and the `isTyping` flag. `sendMessage` is one sequential step.
- `logoutUser` and `onAuthStateChange`: a sign-out call and an observer that only forward SDK results.
- `Text.ToLower`: lower-cases ASCII letters only, because JavaScript's Unicode case mapping is not modelled.
- `Text.Trim`: its own contract states only that the result is no longer than the input; what it returns (trimmed, and the infix of the input between its leading and trailing white space) is stated by the lemmas `Text.TrimIsTrimmed` and `Text.TrimIsInfix`.
- `Sessions.DeriveTitle`: the 30-character cut counts Unicode scalar values, where JavaScript counts UTF-16 code units, so a title of text outside the Basic Multilingual Plane differs from the source's.
- `Auth.RegisterUser`: the minimum username and password lengths are counted in Unicode scalar values, not UTF-16 code units.
- `Auth.LoginUser`: a profile document whose `createdAt` is not a Firestore timestamp makes `toDate()` throw ("Login failed"). This case is not modelled; `createdAt` is left out of profiles.
- `Proxy.Handle`: the method is compared as received, and header-name case-insensitivity belongs to the runtime. A `messages` value that is present but not an array is not modelled.

## Findings

| source | as written | input that shows it | evidently intended | confidence | as-written member | corrected member |
|---|---|---|---|---|---|---|
| src/hooks/useChat.ts:55-57 | builds the updated session from `session`, an identifier not declared in the scope; reading it throws `ReferenceError` before the `try`, so nothing is appended or sent | a current empty session, user "u1", content "hi" | build from `currentSession`, which the guard on line 45 checks | high, not executed | Chat.SendMessageAsWritten | Chat.SendMessage |
| src/hooks/useChat.ts:72 | calls `generateAIResponse(conversationHistory)` with one argument, so `systemPrompt` is `undefined` and the system entry has no content | any session with one user turn | pass the system prompt as the second argument | high, not executed | Chat.ReplyCallAsWritten | Chat.ReplyCall |

`Chat.SessionDefectWitness` and `Chat.SystemPromptDefectWitness` exhibit the two
discrepancies on the inputs named above.

=== FILE: auth.dfy ===
/** Registration and login (src/services/auth.ts): the ordered validation of
    `registerUser`, the case-insensitive username reservation, and the mappings
    from provider error codes to the messages shown to the user. Every Firebase
    call is an outcome parameter. */
module Auth {
  import opened Wrappers
  import opened Text

  const MinUsernameLength: nat := 3
  const MinPasswordLength: nat := 6

  const UsernameTooShort: string := "Username must be at least 3 characters long"
  const PasswordTooShort: string := "Password must be at least 6 characters long"
  const UsernameTaken: string := "Username already exists. Please choose a different one."
  const RegistrationFailed: string := "Registration failed"
  const EmailInUse: string := "Email already in use. Please use a different email."
  const WeakPassword: string := "Password is too weak. Please use a stronger password."
  const InvalidEmail: string := "Invalid email address."
  const LoginFailed: string := "Login failed"
  const NoAccount: string := "No account found with this email."
  const WrongPassword: string := "Incorrect password."
  const TooManyRequests: string := "Too many failed attempts. Please try again later."
  const ProfileNotFound: string := "User profile not found"

  /** A thrown error's `code` property; `None` when the error has none. */
  type ErrorCode = Option<string>

  datatype Credentials = Credentials(username: string, email: string, password: string)

  datatype UserProfile = UserProfile(id: string, username: string, email: string)

  /** `{ success, error?, user? }`. */
  datatype AuthResult = Succeeded(user: UserProfile) | Failed(error: string)

  /** The `usernames` collection as the availability check sees it: a snapshot
      of reserved keys (to owning user id), or a read that threw. */
  datatype UsernameLookup = LookupThrew | Snapshot(reserved: map<string, string>)

  /** `createUserWithEmailAndPassword` / `signInWithEmailAndPassword`. */
  datatype AccountOutcome = Account(uid: string) | AccountRejected(code: ErrorCode)

  /** A Firestore `setDoc`. */
  datatype WriteOutcome = Written | WriteThrew(code: ErrorCode)

  /** The key a username is reserved and looked up under. */
  function UsernameKey(username: string): (k: string)
    ensures |k| == |username|
    ensures ToLower(k) == k
    ensures forall i :: 0 <= i < |k| ==> !IsUpper(k[i])
    ensures forall i :: 0 <= i < |k| ==> SameLetter(username[i], k[i])
  {
    ToLowerIdempotent(username);
    ToLower(username)
  }

  /** `checkUsernameAvailability`: available iff no reservation exists under the
      lower-cased name; a failed lookup counts as taken. */
  function CheckUsernameAvailability(lookup: UsernameLookup, username: string): (ok: bool)
    ensures lookup.LookupThrew? ==> !ok
    ensures lookup.Snapshot? ==> (ok <==> UsernameKey(username) !in lookup.reserved)
  {
    match lookup
    case LookupThrew => false
    case Snapshot(reserved) => UsernameKey(username) !in reserved
  }

  /** The `catch` block of `registerUser`: a total map from error codes, with
      the generic message for every code it does not name. */
  function RegistrationMessage(code: ErrorCode): (msg: string)
    ensures msg in {EmailInUse, WeakPassword, InvalidEmail, RegistrationFailed}
  {
    if code == Some("auth/email-already-in-use") then EmailInUse
    else if code == Some("auth/weak-password") then WeakPassword
    else if code == Some("auth/invalid-email") then InvalidEmail
    else RegistrationFailed
  }

  /** The `catch` block of `loginUser`. */
  function LoginMessage(code: ErrorCode): (msg: string)
    ensures msg in {NoAccount, WrongPassword, InvalidEmail, TooManyRequests, LoginFailed}
  {
    if code == Some("auth/user-not-found") then NoAccount
    else if code == Some("auth/wrong-password") then WrongPassword
    else if code == Some("auth/invalid-email") then InvalidEmail
    else if code == Some("auth/too-many-requests") then TooManyRequests
    else LoginFailed
  }

  /** The registration messages: exactly the three named codes get a specific
      message, the three messages are distinct, and everything else gets
      "Registration failed". */
  lemma RegistrationMessageCases(code: ErrorCode)
    ensures RegistrationMessage(code) == "Registration failed" <==>
      code !in {Some("auth/email-already-in-use"), Some("auth/weak-password"), Some("auth/invalid-email")}
    ensures RegistrationMessage(code) in {EmailInUse, WeakPassword, InvalidEmail, RegistrationFailed}
    ensures RegistrationMessage(Some("auth/email-already-in-use")) == "Email already in use. Please use a different email."
    ensures RegistrationMessage(Some("auth/weak-password")) == "Password is too weak. Please use a stronger password."
    ensures RegistrationMessage(Some("auth/invalid-email")) == "Invalid email address."
  {
  }

  /** The login messages, likewise, with "Login failed" as the default. */
  lemma LoginMessageCases(code: ErrorCode)
    ensures LoginMessage(code) == "Login failed" <==>
      code !in {Some("auth/user-not-found"), Some("auth/wrong-password"), Some("auth/invalid-email"), Some("auth/too-many-requests")}
    ensures LoginMessage(code) in {NoAccount, WrongPassword, InvalidEmail, TooManyRequests, LoginFailed}
    ensures LoginMessage(Some("auth/user-not-found")) == "No account found with this email."
    ensures LoginMessage(Some("auth/wrong-password")) == "Incorrect password."
    ensures LoginMessage(Some("auth/invalid-email")) == "Invalid email address."
    ensures LoginMessage(Some("auth/too-many-requests")) == "Too many failed attempts. Please try again later."
  {
  }

  /** What one `registerUser` call returned and which writes it performed:
      the account it created, whether the profile document was written, and the
      username key it reserved (with the owning uid). */
  datatype Registration = Registration(result: AuthResult, created: Option<string>, profileSaved: bool, reservation: Option<(string, string)>)

  /** The three checks before any account is created all pass. */
  predicate PreChecksPass(c: Credentials, lookup: UsernameLookup) {
    |c.username| >= MinUsernameLength && |c.password| >= MinPasswordLength
    && CheckUsernameAvailability(lookup, c.username)
  }

  /** `registerUser(credentials)`: username length, then password length, then
      availability, then account creation, profile write and reservation; the
      first failure decides the message. */
  function RegisterUser(c: Credentials, lookup: UsernameLookup, create: AccountOutcome,
                        profileWrite: WriteOutcome, reserveWrite: WriteOutcome): (r: Registration)
    ensures |c.username| < 3 ==> r == Registration(Failed(UsernameTooShort), None, false, None)
    ensures |c.username| >= 3 && |c.password| < 6 ==> r == Registration(Failed(PasswordTooShort), None, false, None)
    ensures |c.username| >= 3 && |c.password| >= 6 && !CheckUsernameAvailability(lookup, c.username) ==>
      r == Registration(Failed(UsernameTaken), None, false, None)
    ensures r.result.Succeeded? <==>
      && |c.username| >= 3 && |c.password| >= 6
      && CheckUsernameAvailability(lookup, c.username)
      && create.Account? && profileWrite.Written? && reserveWrite.Written?
    ensures r.result.Succeeded? ==>
      && r.result.user == UserProfile(create.uid, c.username, c.email)
      && r.reservation == Some((UsernameKey(c.username), create.uid))
    ensures r.reservation.Some? ==> r.result.Succeeded?
    ensures PreChecksPass(c, lookup) && create.AccountRejected? ==>
      r == Registration(Failed(RegistrationMessage(create.code)), None, false, None)
    ensures PreChecksPass(c, lookup) && create.Account? && profileWrite.WriteThrew? ==>
      r == Registration(Failed(RegistrationMessage(profileWrite.code)), Some(create.uid), false, None)
    ensures PreChecksPass(c, lookup) && create.Account? && profileWrite.Written? && reserveWrite.WriteThrew? ==>
      r == Registration(Failed(RegistrationMessage(reserveWrite.code)), Some(create.uid), true, None)
    ensures r.result.Succeeded? ==> r.created == Some(create.uid) && r.profileSaved
    ensures r.created.Some? ==> CheckUsernameAvailability(lookup, c.username)
  {
    if |c.username| < MinUsernameLength then Registration(Failed(UsernameTooShort), None, false, None)
    else if |c.password| < MinPasswordLength then Registration(Failed(PasswordTooShort), None, false, None)
    else if !CheckUsernameAvailability(lookup, c.username) then Registration(Failed(UsernameTaken), None, false, None)
    else match create
      case AccountRejected(code) => Registration(Failed(RegistrationMessage(code)), None, false, None)
      case Account(uid) =>
        match profileWrite
        case WriteThrew(code) => Registration(Failed(RegistrationMessage(code)), Some(uid), false, None)
        case Written =>
          match reserveWrite
          case WriteThrew(code) => Registration(Failed(RegistrationMessage(code)), Some(uid), true, None)
          case Written =>
            Registration(Succeeded(UserProfile(uid, c.username, c.email)), Some(uid), true,
                         Some((UsernameKey(c.username), uid)))
  }

  /** The `usernames` collection after a registration. */
  function ApplyReservation(reserved: map<string, string>, reg: Registration): (after: map<string, string>)
    ensures reg.reservation.None? ==> after == reserved
    ensures reg.reservation.Some? ==>
      after.Keys == reserved.Keys + {reg.reservation.value.0}
      && after[reg.reservation.value.0] == reg.reservation.value.1
    ensures forall k :: k in reserved && (reg.reservation.None? || k != reg.reservation.value.0) ==> after[k] == reserved[k]
  {
    match reg.reservation
    case Some(kv) => reserved[kv.0 := kv.1]
    case None => reserved
  }

  /** Reservation is case-insensitive: once a registration succeeds, every
      username equal to it up to ASCII case is reported unavailable, and a later
      registration of it fails with the "already exists" message. */
  lemma ReservationIsCaseInsensitive(c: Credentials, reserved: map<string, string>, create: AccountOutcome,
                                     profileWrite: WriteOutcome, reserveWrite: WriteOutcome, c2: Credentials,
                                     create2: AccountOutcome, profileWrite2: WriteOutcome, reserveWrite2: WriteOutcome)
    requires RegisterUser(c, Snapshot(reserved), create, profileWrite, reserveWrite).result.Succeeded?
    requires EqualIgnoringCase(c.username, c2.username) && |c2.password| >= 6
    ensures var after := ApplyReservation(reserved, RegisterUser(c, Snapshot(reserved), create, profileWrite, reserveWrite));
      && !CheckUsernameAvailability(Snapshot(after), c2.username)
      && RegisterUser(c2, Snapshot(after), create2, profileWrite2, reserveWrite2).result == Failed(UsernameTaken)
  {
    ToLowerEqualIffEqualIgnoringCase(c.username, c2.username);
  }

  /** Two usernames share a key exactly when they differ only in the case of
      their ASCII letters. */
  lemma UsernameKeyIdentifiesCase(a: string, b: string)
    ensures UsernameKey(a) == UsernameKey(b) <==> EqualIgnoringCase(a, b)
  {
    ToLowerEqualIffEqualIgnoringCase(a, b);
  }

  /** After a successful registration a name is unavailable exactly when it
      equals the registered one up to case or was unavailable before: every
      other name keeps the availability it had. */
  lemma ReservationTakesOnlyItsName(c: Credentials, reserved: map<string, string>, create: AccountOutcome,
                                    profileWrite: WriteOutcome, reserveWrite: WriteOutcome, name: string)
    requires RegisterUser(c, Snapshot(reserved), create, profileWrite, reserveWrite).result.Succeeded?
    ensures var after := ApplyReservation(reserved, RegisterUser(c, Snapshot(reserved), create, profileWrite, reserveWrite));
      CheckUsernameAvailability(Snapshot(after), name) <==>
        !EqualIgnoringCase(c.username, name) && CheckUsernameAvailability(Snapshot(reserved), name)
  {
    UsernameKeyIdentifiesCase(c.username, name);
  }

  /** What `getDoc(doc(db, 'users', uid))` produced for login. */
  datatype ProfileRead = ProfileReadThrew(code: ErrorCode) | ProfileMissing | ProfileFound(username: string, email: string)

  /** `loginUser(credentials)`: sign in, then load the profile; a missing
      profile is its own failure, any thrown error goes through the login
      message mapping. */
  function LoginUser(c: Credentials, signIn: AccountOutcome, profile: ProfileRead): (r: AuthResult)
    ensures signIn.AccountRejected? ==> r == Failed(LoginMessage(signIn.code))
    ensures signIn.Account? && profile.ProfileMissing? ==> r == Failed("User profile not found")
    ensures signIn.Account? && profile.ProfileReadThrew? ==> r == Failed(LoginMessage(profile.code))
    ensures r.Succeeded? <==> signIn.Account? && profile.ProfileFound?
    ensures r.Succeeded? ==> r.user == UserProfile(signIn.uid, profile.username, profile.email)
  {
    match signIn
    case AccountRejected(code) => Failed(LoginMessage(code))
    case Account(uid) =>
      match profile
      case ProfileReadThrew(code) => Failed(LoginMessage(code))
      case ProfileMissing => Failed(ProfileNotFound)
      case ProfileFound(username, email) => Succeeded(UserProfile(uid, username, email))
  }

  /** A registration can fail after the account was created (the profile or
      reservation write threw): the account then exists without a reserved
      username. */
  lemma FailedRegistrationCanLeaveAccount()
    ensures var r := RegisterUser(Credentials("alice", "a@example.com", "secret1"), Snapshot(map[]),
                                  Account("uid1"), Written, WriteThrew(Some("permission-denied")));
      && r.result == Failed("Registration failed")
      && r.created == Some("uid1") && r.reservation.None?
  {
  }
}

=== FILE: chat.dfy ===
/** The `useChat` hook (src/hooks/useChat.ts) as one sequential step per user
    action: the in-memory session list and current session, `createNewSession`,
    the user-change effect, and `sendMessage` with its success and failure paths.
    The provider call and the Firestore write are outcome parameters. */
module Chat {
  import opened Wrappers
  import opened Text
  import opened Completion
  import opened Sessions

  /** The fixed apology turn appended when anything inside the `try` fails. */
  const ApologyText: string := "Sorry, I encountered an error. Please check your API configuration and try again."

  /** The hook's state: `sessions` and `currentSession`. */
  datatype ChatState = ChatState(sessions: seq<Session>, current: Option<Session>)

  /** The identifiers and clock readings one `sendMessage` call consumes. */
  datatype Fresh = Fresh(userMessageId: string, sentAt: Instant, replyMessageId: string, repliedAt: Instant)

  /** What one `sendMessage` call leaves behind: the new state, the completion
      call it made, the session it handed to `saveChatSession`, and whether the
      returned promise rejected. */
  datatype SendEffects = SendEffects(state: ChatState, generation: Option<Generation>, saved: Option<Session>, rejected: bool)

  /** The guard `if (!currentSession || !userId) return;` lets the call through:
      a current session exists and the user id is present and non-empty. */
  predicate CanSend(st: ChatState, userId: Option<string>) {
    st.current.Some? && userId.Some? && userId.value != ""
  }

  /** `handleSubmit` of the chat input (src/components/ChatInterface.tsx): the
      text is sent, trimmed, exactly when it is not blank. This is why
      `sendMessage` may assume trimmed, non-empty content. */
  function SubmitText(input: string): (r: Option<string>)
    ensures r.Some? <==> Trim(input) != ""
    ensures r.Some? ==> r.value != "" && Trimmed(r.value) && r.value == Trim(input)
  {
    TrimIsTrimmed(input);
    var t := Trim(input);
    if t != "" then Some(t) else None
  }

  /** `createNewSession`: the new empty session becomes current; the list is
      not touched. */
  function CreateNewSession(st: ChatState, id: string, now: Instant): (r: (ChatState, Session))
    ensures r.1.id == id && r.1.title == "New Chat" && r.1.messages == []
    ensures r.0.current == Some(r.1) && r.0.sessions == st.sessions
  {
    var s := NewSession(id, now);
    (st.(current := Some(s)), s)
  }

  /** The effect on `userId`: without a user both list and current session are
      cleared; with one the list is replaced by what the store returned, which
      the Firestore read turns into the empty list on error (`fetched == None`). */
  function OnUserChange(st: ChatState, userId: Option<string>, fetched: Option<seq<Session>>): (r: ChatState)
    ensures (userId.None? || userId == Some("")) ==> r.sessions == [] && r.current.None?
    ensures userId.Some? && userId.value != "" ==> r.current == st.current
    ensures userId.Some? && userId.value != "" && fetched.None? ==> r.sessions == []
    ensures userId.Some? && userId.value != "" && fetched.Some? ==> r.sessions == fetched.value
  {
    if userId.None? || userId.value == "" then ChatState([], None)
    else st.(sessions := fetched.GetOr([]))
  }

  /** The completion call of `sendMessage` with the system prompt supplied:
      the prompt is the first entry, then the whole conversation in order. */
  function ReplyCall(updated: Session, systemPrompt: string, provider: ProviderOutcome): (g: Generation)
    ensures |g.request.messages| == |updated.messages| + 1
    ensures g.request.messages[0] == WireMessage("system", Some(systemPrompt))
    ensures g.request.messages[1..] == ToWire(Transcript(updated.messages))
    ensures forall i :: 0 <= i < |updated.messages| ==>
      g.request.messages[i + 1].content == Some(updated.messages[i].content)
      && g.request.messages[i + 1].role == (if updated.messages[i].sender == User then "user" else "assistant")
    ensures provider.ProviderThrew? ==> g.reply == Failure(ProviderFailure)
    ensures provider.Completed? ==> g.reply == Success(ReplyText(provider.choices))
  {
    var g := GenerateAIResponse(Transcript(updated.messages), Some(systemPrompt), provider);
    assert forall i :: 0 <= i < |updated.messages| ==> g.request.messages[i + 1] == g.request.messages[1..][i];
    g
  }

  /** The completion call exactly as line 72 writes it: `generateAIResponse`
      takes two arguments but is given one, so `systemPrompt` is `undefined`
      and the system entry goes out without content. */
  function ReplyCallAsWritten(updated: Session, provider: ProviderOutcome): (g: Generation)
    ensures |g.request.messages| == |updated.messages| + 1
    ensures g.request.messages[0].role == "system" && g.request.messages[0].content.None?
  {
    GenerateAIResponse(Transcript(updated.messages), None, provider)
  }

  /** `c` is `cur` with `userTurn` and then one `ai` turn appended; a session
      that was empty takes its title from the user turn, any other keeps its
      title. */
  predicate TwoTurnsAppended(cur: Session, c: Session, userTurn: Message) {
    var n := |cur.messages|;
    && c.id == cur.id
    && |c.messages| == n + 2
    && c.messages[..n] == cur.messages
    && c.messages[n] == userTurn
    && c.messages[n + 1].sender == Ai
    && (n == 0 ==> c.title == DeriveTitle(userTurn.content))
    && (n != 0 ==> c.title == cur.title)
  }

  /** `r` asks the fixed model, with the fixed budget, about the system prompt
      (as the system entry) and then the conversation of `c` up to and
      including its user turn `c.messages[n]`, in order. */
  predicate AsksAbout(r: CompletionRequest, systemPrompt: string, c: Session, n: nat) {
    && n < |c.messages|
    && |r.messages| == n + 2
    && r.messages[0] == WireMessage("system", Some(systemPrompt))
    && r.model == "gpt-3.5-turbo" && r.maxTokens == 1000
    && r.messages[n + 1] == WireMessage("user", Some(c.messages[n].content))
    && r.messages[1..] == ToWire(Transcript(c.messages[..n + 1]))
  }

  /** The content of the last turn of a session. */
  function LastContent(c: Session): string {
    if c.messages == [] then "" else c.messages[|c.messages| - 1].content
  }

  /** What the `try` block of `sendMessage` does to the current session `cur`:
      the session it ends with, the completion call it made, and the session it
      handed to `saveChatSession`. The user turn is appended and the provider
      asked; either the reply is appended and saved, or (on a provider failure
      or a failed save) the apology is appended to the session holding the
      user turn. */
  datatype Exchange = Exchange(session: Session, generation: Generation, saved: Option<Session>)

  function Converse(cur: Session, content: string, systemPrompt: string,
                    ids: Fresh, provider: ProviderOutcome, saveOk: bool): (x: Exchange)
    ensures TwoTurnsAppended(cur, x.session, Message(ids.userMessageId, content, User, ids.sentAt))
    ensures AsksAbout(x.generation.request, systemPrompt, x.session, |cur.messages|)
    ensures provider.Completed? && saveOk ==>
      LastContent(x.session) == ReplyText(provider.choices) && x.saved == Some(x.session)
    ensures provider.ProviderThrew? || !saveOk ==> LastContent(x.session) == ApologyText
    ensures provider.ProviderThrew? ==> x.saved.None?
  {
    var updated := AppendUserTurn(cur, UserMessage(ids.userMessageId, content, ids.sentAt), ids.sentAt);
    var g := ReplyCall(updated, systemPrompt, provider);
    assert g.request.messages[|cur.messages| + 1] == WireMessage("user", Some(content));
    var shown := if g.reply.Success? && saveOk then g.reply.value else ApologyText;
    var session := AppendReply(updated, Message(ids.replyMessageId, shown, Ai, ids.repliedAt), ids.repliedAt);
    var saved := if g.reply.Success? then Some(AppendReply(updated, Message(ids.replyMessageId, g.reply.value, Ai, ids.repliedAt), ids.repliedAt)) else None;
    Exchange(session, g, saved)
  }

  /** `sendMessage(content)`, reading the current session where the source
      reads the undeclared `session` (lines 55-57). One sequential step: the
      user turn and a reply or apology are appended to the current session,
      the provider is sent the prompt and the conversation so far, and the list
      takes the session only when the reply came and was saved. */
  function SendMessage(st: ChatState, userId: Option<string>, content: string, systemPrompt: string,
                       ids: Fresh, provider: ProviderOutcome, saveOk: bool): (e: SendEffects)
    requires content != "" && Trimmed(content)
    ensures !e.rejected
    ensures !CanSend(st, userId) ==> e.state == st && e.generation.None? && e.saved.None?
    ensures CanSend(st, userId) ==>
      && e.state.current.Some? && e.generation.Some?
      && TwoTurnsAppended(st.current.value, e.state.current.value, Message(ids.userMessageId, content, User, ids.sentAt))
      && AsksAbout(e.generation.value.request, systemPrompt, e.state.current.value, |st.current.value.messages|)
    ensures CanSend(st, userId) && provider.Completed? && saveOk ==>
      var c := e.state.current.value;
      && LastContent(c) == ReplyText(provider.choices)
      && e.saved == Some(c)
      && e.state.sessions == UpsertSession(st.sessions, c)
    ensures CanSend(st, userId) && (provider.ProviderThrew? || !saveOk) ==>
      LastContent(e.state.current.value) == ApologyText && e.state.sessions == st.sessions
    ensures CanSend(st, userId) && provider.ProviderThrew? ==> e.saved.None?
  {
    if !CanSend(st, userId) then SendEffects(st, None, None, false)
    else
      var x := Converse(st.current.value, content, systemPrompt, ids, provider, saveOk);
      var sessions := if provider.Completed? && saveOk then UpsertSession(st.sessions, x.session) else st.sessions;
      SendEffects(ChatState(sessions, Some(x.session)), Some(x.generation), x.saved, false)
  }

  /** `sendMessage` exactly as written: once the guard passes, line 55 reads the
      undeclared identifier `session`, which throws a `ReferenceError` before the
      `try` block, so the returned promise rejects and nothing else happens. */
  function SendMessageAsWritten(st: ChatState, userId: Option<string>, content: string,
                                ids: Fresh, provider: ProviderOutcome, saveOk: bool): (e: SendEffects)
    requires content != "" && Trimmed(content)
    ensures e.state == st && e.generation.None? && e.saved.None?
    ensures e.rejected <==> CanSend(st, userId)
  {
    SendEffects(st, None, None, CanSend(st, userId))
  }

  /** A concrete call that shows the defect: with a current empty session and a
      signed-in user, the corrected step records the user turn and a reply,
      while the code as written leaves the session empty and rejects. */
  lemma SessionDefectWitness()
    ensures var s := NewSession("s1", 0);
      var st := ChatState([], Some(s));
      var ids := Fresh("m1", 1, "m2", 2);
      var provider := Completed([Choice(Some(ChoiceMessage(Some("hello"))))]);
      && SendMessageAsWritten(st, Some("u1"), "hi", ids, provider, true).state.current.value.messages == []
      && SendMessageAsWritten(st, Some("u1"), "hi", ids, provider, true).rejected
      && |SendMessage(st, Some("u1"), "hi", "be kind", ids, provider, true).state.current.value.messages| == 2
  {
    var s := NewSession("s1", 0);
    var st := ChatState([], Some(s));
    assert CanSend(st, Some("u1"));
    assert Trimmed("hi");
  }

  /** A concrete call that shows the missing argument: the request built as
      written carries no system prompt, the corrected one carries the prompt. */
  lemma SystemPromptDefectWitness()
    ensures var s := NewSession("s1", 0).(messages := [Message("m1", "hi", User, 1)]);
      && ReplyCallAsWritten(s, ProviderThrew).request.messages[0].content == None
      && ReplyCall(s, "be kind", ProviderThrew).request.messages[0].content == Some("be kind")
  {
  }

  /** The session list after any successful send contains the finished session
      once per entry that had its id, and never loses another session. */
  lemma SendKeepsOtherSessions(st: ChatState, userId: Option<string>, content: string, systemPrompt: string,
                               ids: Fresh, provider: ProviderOutcome, saveOk: bool, other: Session)
    requires content != "" && Trimmed(content)
    requires other in st.sessions
    ensures var e := SendMessage(st, userId, content, systemPrompt, ids, provider, saveOk);
      other in e.state.sessions || (e.state.current.Some? && other.id == e.state.current.value.id)
  {
    var e := SendMessage(st, userId, content, systemPrompt, ids, provider, saveOk);
    if e.state.sessions != st.sessions {
      assert CanSend(st, userId) && provider.Completed? && saveOk;
      var c := e.state.current.value;
      var i :| 0 <= i < |st.sessions| && st.sessions[i] == other;
      if HasId(st.sessions, c.id) {
        assert e.state.sessions[i] == (if other.id == c.id then c else other);
      } else {
        assert e.state.sessions[i + 1] == other;
      }
    }
  }
}

=== FILE: completion.dfy ===
/** The chat-completion request the application sends to the language-model
    provider, and how `generateAIResponse` turns the provider's answer into a
    reply string (src/services/openai.ts). The request shape is shared with the
    edge proxy, which builds the same body on the server side. */
module Completion {
  import opened Wrappers

  /** The fixed model identifier. */
  const ChatModel: string := "gpt-3.5-turbo"
  /** The fixed completion budget. */
  const MaxTokens: nat := 1000
  /** Returned when the provider answers without usable content. */
  const FallbackReply: string := "Sorry, I could not generate a response."
  /** The one error every provider failure is re-raised as. */
  const ProviderFailure: string := "Failed to generate AI response. Please check your API key and try again."

  /** One entry of the `messages` array on the wire. `content` is `None` when
      the JavaScript value was `undefined` (JSON serialisation then drops it). */
  datatype WireMessage = WireMessage(role: string, content: Option<string>)

  /** The request body; `temperature` is a float and is not modelled. */
  datatype CompletionRequest = CompletionRequest(model: string, messages: seq<WireMessage>, maxTokens: nat)

  /** Roles the application itself ever puts into a history. */
  datatype Role = UserRole | AssistantRole

  /** One `{ role, content }` entry of a conversation history. */
  datatype HistoryEntry = HistoryEntry(role: Role, content: string)

  function RoleName(r: Role): string {
    match r
    case UserRole => "user"
    case AssistantRole => "assistant"
  }

  /** The history as wire messages: same length, same order, same content. */
  function ToWire(h: seq<HistoryEntry>): (w: seq<WireMessage>)
    ensures |w| == |h|
    ensures forall i :: 0 <= i < |h| ==> w[i] == WireMessage(RoleName(h[i].role), Some(h[i].content))
  {
    if h == [] then [] else [WireMessage(RoleName(h[0].role), Some(h[0].content))] + ToWire(h[1..])
  }

  /** A request carrying `prompt` as its system entry, then `messages`. */
  function BuildRequest(prompt: Option<string>, messages: seq<WireMessage>): (r: CompletionRequest)
    ensures |r.messages| == |messages| + 1
    ensures r.messages[0] == WireMessage("system", prompt)
    ensures r.messages[1..] == messages
    ensures r.model == "gpt-3.5-turbo" && r.maxTokens == 1000
  {
    CompletionRequest(ChatModel, [WireMessage("system", prompt)] + messages, MaxTokens)
  }

  /** The system prompt and the history can both be read back from a request,
      so building a request loses nothing. */
  function SystemPromptOf(r: CompletionRequest): Option<string> {
    if r.messages == [] then None else r.messages[0].content
  }

  function ForwardedOf(r: CompletionRequest): seq<WireMessage> {
    if r.messages == [] then [] else r.messages[1..]
  }

  lemma BuildRequestRoundTrip(prompt: Option<string>, messages: seq<WireMessage>)
    ensures SystemPromptOf(BuildRequest(prompt, messages)) == prompt
    ensures ForwardedOf(BuildRequest(prompt, messages)) == messages
  {
  }

  /** The parts of a provider answer the client looks at:
      `completion.choices[i].message.content`, each of which may be absent. */
  datatype ChoiceMessage = ChoiceMessage(content: Option<string>)
  datatype Choice = Choice(message: Option<ChoiceMessage>)

  /** What the provider call did: it threw, or it returned a completion. */
  datatype ProviderOutcome = ProviderThrew | Completed(choices: seq<Choice>)

  /** `completion.choices[0]?.message?.content`. */
  function FirstContent(choices: seq<Choice>): (c: Option<string>)
    ensures choices == [] ==> c.None?
    ensures c.Some? ==> choices[0].message == Some(ChoiceMessage(c))
    ensures choices != [] && choices[0].message.Some? ==> c == choices[0].message.value.content
  {
    if choices == [] then None
    else match choices[0].message
      case None => None
      case Some(m) => m.content
  }

  /** `FirstContent(choices) || FallbackReply`: the empty string is falsy, so
      it takes the fallback just like an absent value. */
  function ReplyText(choices: seq<Choice>): (r: string)
    ensures r != ""
    ensures r == FallbackReply <==> (FirstContent(choices) == None || FirstContent(choices) == Some("") || FirstContent(choices) == Some(FallbackReply))
    ensures r != FallbackReply ==> FirstContent(choices) == Some(r)
  {
    match FirstContent(choices)
    case Some(c) => if c != "" then c else FallbackReply
    case None => FallbackReply
  }

  /** What one `generateAIResponse` call sends and returns. */
  datatype Generation = Generation(request: CompletionRequest, reply: Result<string, string>)

  /** `generateAIResponse(messages, systemPrompt)` against a provider that
      behaves as `outcome`. `systemPrompt` is `None` when the caller omitted
      the argument. */
  function GenerateAIResponse(history: seq<HistoryEntry>, systemPrompt: Option<string>, outcome: ProviderOutcome): (g: Generation)
    ensures |g.request.messages| == |history| + 1
    ensures g.request.messages[0] == WireMessage("system", systemPrompt)
    ensures g.request.messages[1..] == ToWire(history)
    ensures g.request.model == "gpt-3.5-turbo" && g.request.maxTokens == 1000
    ensures g.reply.Failure? <==> outcome.ProviderThrew?
    ensures g.reply.Failure? ==> g.reply.error == ProviderFailure
    ensures g.reply.Success? ==> g.reply.value != ""
    ensures g.reply.Success? && g.reply.value != FallbackReply ==> FirstContent(outcome.choices) == Some(g.reply.value)
    ensures outcome.Completed? ==> g.reply == Success(ReplyText(outcome.choices))
  {
    var request := BuildRequest(systemPrompt, ToWire(history));
    match outcome
    case ProviderThrew => Generation(request, Failure(ProviderFailure))
    case Completed(choices) => Generation(request, Success(ReplyText(choices)))
  }

  /** A completion whose first choice carries non-empty text is answered with
      exactly that text. */
  lemma ReplyIsProviderText(history: seq<HistoryEntry>, systemPrompt: Option<string>, choices: seq<Choice>, text: string)
    requires choices != [] && choices[0].message == Some(ChoiceMessage(Some(text))) && text != ""
    ensures GenerateAIResponse(history, systemPrompt, Completed(choices)).reply == Success(text)
  {
  }
}

=== FILE: local_store.dfy ===
/** The client-local session store (src/services/localStorage.ts): one blob under
    a fixed key holding a map from user id to that user's ordered session list,
    read and written wholesale by every operation. JSON (de)serialisation and the
    re-hydration of dates are identities here, since timestamps are opaque. */
module LocalStore {
  import opened Wrappers
  import opened Sessions

  const StorageKey: string := "venky_ai_chat_sessions"

  type Store = map<string, seq<Session>>

  /** What `localStorage.getItem(StorageKey)` holds: nothing (or the empty
      string, which is falsy), a parseable map from user id to session list,
      text `JSON.parse` rejects, or a document `JSON.parse` accepts that is no
      such map (`null`, say), on which the property read `allSessions[userId]`
      or the list operations after it throw. */
  datatype Blob = Absent | Stored(store: Store) | Unparseable | Malformed

  /** `getAllChatSessions`: a missing or unparseable blob reads as the empty
      map; a malformed one is returned as parsed, which is no usable map. */
  function AllSessions(b: Blob): (m: Option<Store>)
    ensures m.None? <==> b.Malformed?
    ensures b.Absent? || b.Unparseable? ==> m == Some(map[])
    ensures b.Stored? ==> m == Some(b.store)
  {
    match b
    case Stored(store) => Some(store)
    case Malformed => None
    case _ => Some(map[])
  }

  /** `allSessions[userId] || []`. */
  function UserSessions(m: Store, userId: string): seq<Session> {
    if userId in m then m[userId] else []
  }

  /** `userSessions.findIndex(s => s.id === id)`: the first position holding the
      id, or `None` for -1. */
  function FindIndex(list: seq<Session>, id: string): (r: Option<nat>)
    ensures r.Some? ==> r.value < |list| && list[r.value].id == id
    ensures r.Some? ==> forall j :: 0 <= j < r.value ==> list[j].id != id
    ensures r.None? <==> !HasId(list, id)
  {
    if list == [] then None
    else if list[0].id == id then Some(0)
    else match FindIndex(list[1..], id)
      case None => None
      case Some(k) => Some(k + 1)
  }

  /** The list update of `saveChatSession`: overwrite the first entry with the
      session's id, or `unshift` the session when there is none. */
  function SaveInList(list: seq<Session>, s: Session): (r: seq<Session>)
    ensures s in r
    ensures |r| == |list| + (if HasId(list, s.id) then 0 else 1)
  {
    match FindIndex(list, s.id)
    case Some(i) =>
      assert list[i := s][i] == s;
      list[i := s]
    case None => [s] + list
  }

  /** `userSessions.filter(session => session.id !== sessionId)`. */
  function Without(list: seq<Session>, id: string): (r: seq<Session>)
    ensures |r| <= |list|
    ensures forall x :: x in r <==> x in list && x.id != id
  {
    if list == [] then []
    else if list[0].id == id then Without(list[1..], id)
    else [list[0]] + Without(list[1..], id)
  }

  /** The map update of `saveChatSession`. */
  function Save(m: Store, userId: string, s: Session): (r: Store)
    ensures r.Keys == m.Keys + {userId}
    ensures s in r[userId]
    ensures forall v :: v in m && v != userId ==> r[v] == m[v]
  {
    m[userId := SaveInList(UserSessions(m, userId), s)]
  }

  /** The map update of `deleteChatSession`; the user's key is written even when
      it was absent. */
  function Delete(m: Store, userId: string, sessionId: string): (r: Store)
    ensures r.Keys == m.Keys + {userId}
    ensures forall x :: x in r[userId] <==> x in UserSessions(m, userId) && x.id != sessionId
    ensures forall v :: v in m && v != userId ==> r[v] == m[v]
  {
    m[userId := Without(UserSessions(m, userId), sessionId)]
  }

  /** `saveChatSession(userId, session)`. `writeOk` is whether
      `localStorage.setItem` succeeded. A failed write, and the throw on a
      malformed blob, are logged and swallowed, leaving the blob as it was. */
  function SaveChatSession(b: Blob, userId: string, s: Session, writeOk: bool): (r: Blob)
    ensures !writeOk || b.Malformed? ==> r == b
    ensures writeOk && !b.Malformed? ==> r.Stored? && userId in r.store && s in r.store[userId]
  {
    if !writeOk then b
    else match AllSessions(b)
      case None => b
      case Some(m) => Stored(Save(m, userId, s))
  }

  /** `deleteChatSession(userId, sessionId)`, with the same error policy. */
  function DeleteChatSession(b: Blob, userId: string, sessionId: string, writeOk: bool): (r: Blob)
    ensures !writeOk || b.Malformed? ==> r == b
    ensures writeOk && !b.Malformed? ==> r.Stored? && userId in r.store
    ensures writeOk && !b.Malformed? ==>
      forall x :: x in r.store[userId] <==> x in GetUserChatSessions(b, userId) && x.id != sessionId
  {
    if !writeOk then b
    else match AllSessions(b)
      case None => b
      case Some(m) => Stored(Delete(m, userId, sessionId))
  }

  /** `getUserChatSessions(userId)`: the user's stored list, or `[]` when
      there is none or when reading it throws (the `catch` returns `[]`). */
  function GetUserChatSessions(b: Blob, userId: string): (r: seq<Session>)
    ensures !b.Stored? ==> r == []
    ensures b.Stored? && userId !in b.store ==> r == []
    ensures b.Stored? && userId in b.store ==> r == b.store[userId]
  {
    match AllSessions(b)
    case None => []
    case Some(m) => UserSessions(m, userId)
  }

  // ---------------------------------------------------------------------------
  // Properties

  /** Saving a session whose id the user already has replaces the first such
      entry in place; the length and every other position are unchanged. */
  lemma SaveReplacesInPlace(m: Store, userId: string, s: Session, i: nat)
    requires i < |UserSessions(m, userId)| && UserSessions(m, userId)[i].id == s.id
    requires forall j :: 0 <= j < i ==> UserSessions(m, userId)[j].id != s.id
    ensures var old_ := UserSessions(m, userId);
      var new_ := UserSessions(Save(m, userId, s), userId);
      && |new_| == |old_|
      && new_[i] == s
      && (forall j :: 0 <= j < |old_| && j != i ==> new_[j] == old_[j])
  {
    var list := UserSessions(m, userId);
    assert FindIndex(list, s.id) == Some(i);
  }

  /** Saving a session whose id is new for the user puts it at index 0 in front
      of the old list. */
  lemma SavePrepends(m: Store, userId: string, s: Session)
    requires !HasId(UserSessions(m, userId), s.id)
    ensures UserSessions(Save(m, userId, s), userId) == [s] + UserSessions(m, userId)
  {
  }

  /** Saving and deleting for one user leave every other user's entry, and the
      set of other users, exactly as they were. */
  lemma WritesAreFramed(m: Store, userId: string, s: Session, sessionId: string, other: string)
    requires other != userId
    ensures other in Save(m, userId, s) <==> other in m
    ensures other in Delete(m, userId, sessionId) <==> other in m
    ensures UserSessions(Save(m, userId, s), other) == UserSessions(m, other)
    ensures UserSessions(Delete(m, userId, sessionId), other) == UserSessions(m, other)
  {
  }

  /** On any blob but a malformed one (see `MalformedBlobIsInert`), a saved
      session can be read back, and the user's list keeps its length or
      grows by one; the list read back is exactly the old list with the save
      applied, in its stored order. */
  lemma ReadAfterSave(b: Blob, userId: string, s: Session)
    requires !b.Malformed?
    ensures GetUserChatSessions(SaveChatSession(b, userId, s, true), userId) == SaveInList(GetUserChatSessions(b, userId), s)
    ensures s in GetUserChatSessions(SaveChatSession(b, userId, s, true), userId)
    ensures var before := GetUserChatSessions(b, userId);
      var after := GetUserChatSessions(SaveChatSession(b, userId, s, true), userId);
      |after| == |before| + (if HasId(before, s.id) then 0 else 1)
  {
    var list := GetUserChatSessions(b, userId);
    match FindIndex(list, s.id)
    case Some(i) =>
      assert SaveInList(list, s)[i] == s;
    case None =>
      assert SaveInList(list, s)[0] == s;
  }

  /** The list read back after a delete is exactly the old list filtered, in
      its stored order. */
  lemma ReadAfterDelete(b: Blob, userId: string, sessionId: string)
    ensures GetUserChatSessions(DeleteChatSession(b, userId, sessionId, true), userId) == Without(GetUserChatSessions(b, userId), sessionId)
  {
  }

  /** A failed write leaves the blob, and so every read, unchanged. */
  lemma FailedWriteChangesNothing(b: Blob, userId: string, s: Session, sessionId: string)
    ensures SaveChatSession(b, userId, s, false) == b
    ensures DeleteChatSession(b, userId, sessionId, false) == b
  {
  }

  /** A malformed blob is inert: every read throws and returns `[]`, and every
      save or delete throws before writing, so the blob stays as it was. */
  lemma MalformedBlobIsInert(userId: string, s: Session, sessionId: string, writeOk: bool, reader: string)
    ensures GetUserChatSessions(Malformed, reader) == []
    ensures SaveChatSession(Malformed, userId, s, writeOk) == Malformed
    ensures DeleteChatSession(Malformed, userId, sessionId, writeOk) == Malformed
  {
  }

  /** Saving over an unparseable blob starts from the empty map, so only the
      writer's session survives and every other user's sessions read as empty. */
  lemma SaveOverUnparseableBlob(userId: string, s: Session, other: string)
    requires other != userId
    ensures GetUserChatSessions(SaveChatSession(Unparseable, userId, s, true), userId) == [s]
    ensures GetUserChatSessions(SaveChatSession(Unparseable, userId, s, true), other) == []
  {
  }

  /** Filtering is a homomorphism over concatenation: deleting from a joined
      list deletes from each part and joins the results in the same order.
      Together with `WithoutSingle` this fixes the result completely: the kept
      entries, duplicates included, in their original relative order. */
  lemma {:induction false} WithoutConcat(a: seq<Session>, b: seq<Session>, id: string)
    ensures Without(a + b, id) == Without(a, id) + Without(b, id)
    decreases |a|
  {
    if a == [] {
      assert a + b == b;
    } else {
      assert (a + b)[0] == a[0];
      assert (a + b)[1..] == a[1..] + b;
      WithoutConcat(a[1..], b, id);
    }
  }

  /** A one-entry list loses its entry exactly when it has the id. */
  lemma WithoutSingle(x: Session, id: string)
    ensures Without([x], id) == if x.id == id then [] else [x]
  {
    assert [x][1..] == [];
  }

  /** Deleting an id no entry has leaves the list exactly as it was. */
  lemma {:induction false} WithoutAbsentIsIdentity(list: seq<Session>, id: string)
    requires !HasId(list, id)
    ensures Without(list, id) == list
  {
    if list != [] {
      WithoutAbsentIsIdentity(list[1..], id);
    }
  }

  lemma WithoutHasNoId(list: seq<Session>, id: string)
    ensures !HasId(Without(list, id), id)
  {
    var r := Without(list, id);
    assert forall j :: 0 <= j < |r| ==> r[j] in r;
  }

  /** Deleting an id that is absent changes nothing the user can read, so
      deletion is idempotent. */
  lemma DeleteIdempotent(m: Store, userId: string, sessionId: string)
    ensures Delete(Delete(m, userId, sessionId), userId, sessionId) == Delete(m, userId, sessionId)
  {
    var once := Without(UserSessions(m, userId), sessionId);
    WithoutHasNoId(UserSessions(m, userId), sessionId);
    WithoutAbsentIsIdentity(once, sessionId);
  }

  /** Deleting a session that was just saved under a new id gives back the
      list the user had before the save. */
  lemma DeleteUndoesNewSave(m: Store, userId: string, s: Session)
    requires !HasId(UserSessions(m, userId), s.id)
    ensures UserSessions(Delete(Save(m, userId, s), userId, s.id), userId) == UserSessions(m, userId)
  {
    var list := UserSessions(m, userId);
    assert SaveInList(list, s) == [s] + list;
    assert ([s] + list)[1..] == list;
    WithoutAbsentIsIdentity(list, s.id);
  }

  /** Saving keeps the ids of a user's list unique. */
  lemma SaveKeepsIdsUnique(list: seq<Session>, s: Session)
    requires UniqueIds(list)
    ensures UniqueIds(SaveInList(list, s))
  {
    var r := SaveInList(list, s);
    if FindIndex(list, s.id).None? {
      forall i, j | 0 <= i < j < |r|
        ensures r[i].id != r[j].id
      {
        if i == 0 {
          assert r[j] == list[j - 1];
        } else {
          assert r[i] == list[i - 1] && r[j] == list[j - 1];
        }
      }
    }
  }

  /** On a list whose ids are unique, the hook's in-memory upsert and the
      store's save produce the same list: both replace the one entry with the
      id, or both prepend. */
  lemma UpsertAgreesWithSave(list: seq<Session>, s: Session)
    requires UniqueIds(list)
    ensures UpsertSession(list, s) == SaveInList(list, s)
  {
    match FindIndex(list, s.id)
    case None =>
    case Some(i) =>
      var a := UpsertSession(list, s);
      var b := SaveInList(list, s);
      forall j | 0 <= j < |list|
        ensures a[j] == b[j]
      {
        if j != i {
          assert list[j].id != list[i].id;
        }
      }
  }
}

=== FILE: proxy.dfy ===
/** The edge proxy's `fetch` handler (cloudflare-worker/index.ts) as a pure
    function from the incoming request, the server-held key and the outcome of
    the upstream call to the response and the upstream request it issued. */
module Proxy {
  import opened Wrappers
  import opened Completion

  /** The only Authorization header value the proxy admits. */
  const SharedSecretHeader: string := "Bearer VENKYAI-CHAT-SECRET"
  const UpstreamUrl: string := "https://api.openai.com/v1/chat/completions"
  const JsonType: string := "application/json"

  /** The parsed request body: `request.json()` may reject, and `messages` or
      `systemPrompt` may be missing from the object. */
  datatype Body = Unparseable | Json(messages: Option<seq<WireMessage>>, systemPrompt: Option<string>)

  /** `verb` is `request.method`; `authorization` is
      `request.headers.get('Authorization')`, `None` for null. */
  datatype Request = Request(verb: string, authorization: Option<string>, body: Body)

  /** The upstream `fetch` the handler issues. */
  datatype Upstream = Upstream(url: string, verb: string, authorization: string, contentType: string, body: CompletionRequest)

  /** What the upstream call did: `fetch` rejected, or it answered with a status
      and a body that `response.json()` could (`Some`) or could not (`None`) parse. */
  datatype UpstreamOutcome = FetchFailed | Answered(status: int, json: Option<string>)

  datatype Response = Response(status: int, body: string, contentType: Option<string>)

  /** The handler's result and the upstream request it made, if any. */
  datatype Handled = Handled(response: Response, forwarded: Option<Upstream>)

  /** Where the handler stands before any network I/O. */
  datatype Decision = Reject(response: Response) | Forward(upstream: Upstream)

  const MethodNotAllowed: Response := Response(405, "Method Not Allowed", None)
  const Unauthorized: Response := Response(401, "Unauthorized", None)
  const InternalError: Response := Response(500, "Internal Server Error", None)

  /** A POST carrying exactly the shared-secret header. */
  predicate Authorized(req: Request) {
    req.verb == "POST" && req.authorization == Some(SharedSecretHeader)
  }

  /** Everything the handler decides before awaiting the upstream call: method,
      then caller authorization, then the body (a body that does not parse, or
      has no `messages` array to spread, throws into the 500 handler). */
  function Decide(req: Request, apiKey: string): (d: Decision)
    ensures req.verb != "POST" ==> d == Reject(Response(405, "Method Not Allowed", None))
    ensures req.verb == "POST" && req.authorization != Some("Bearer VENKYAI-CHAT-SECRET") ==>
      d == Reject(Response(401, "Unauthorized", None))
    ensures d.Forward? <==> Authorized(req) && req.body.Json? && req.body.messages.Some?
    ensures Authorized(req) && !(req.body.Json? && req.body.messages.Some?) ==>
      d == Reject(Response(500, "Internal Server Error", None))
    ensures d.Forward? ==> d.upstream == Upstream("https://api.openai.com/v1/chat/completions", "POST",
      "Bearer " + apiKey, "application/json", BuildRequest(req.body.systemPrompt, req.body.messages.value))
  {
    if req.verb != "POST" then Reject(MethodNotAllowed)
    else if req.authorization != Some(SharedSecretHeader) then Reject(Unauthorized)
    else match req.body
      case Unparseable => Reject(InternalError)
      case Json(messages, systemPrompt) =>
        if messages.None? then Reject(InternalError)
        else Forward(Upstream(UpstreamUrl, "POST", "Bearer " + apiKey, JsonType,
                              BuildRequest(systemPrompt, messages.value)))
  }

  /** The response once the upstream call settled: its JSON relayed with the
      default status 200 whatever status upstream gave, or 500 on any failure. */
  function Relay(outcome: UpstreamOutcome): (r: Response)
    ensures r.status == 200 <==> outcome.Answered? && outcome.json.Some?
    ensures r.status == 200 ==> r == Response(200, outcome.json.value, Some("application/json"))
    ensures r.status != 200 ==> r == Response(500, "Internal Server Error", None)
  {
    match outcome
    case FetchFailed => InternalError
    case Answered(_, json) =>
      if json.Some? then Response(200, json.value, Some(JsonType)) else InternalError
  }

  /** The whole handler. */
  function Handle(req: Request, apiKey: string, outcome: UpstreamOutcome): (h: Handled)
    ensures req.verb != "POST" ==> h == Handled(Response(405, "Method Not Allowed", None), None)
    ensures req.verb == "POST" && req.authorization != Some("Bearer VENKYAI-CHAT-SECRET") ==>
      h == Handled(Response(401, "Unauthorized", None), None)
    ensures h.forwarded.Some? <==> Authorized(req) && req.body.Json? && req.body.messages.Some?
    ensures Authorized(req) && !(req.body.Json? && req.body.messages.Some?) ==>
      h == Handled(Response(500, "Internal Server Error", None), None)
    ensures h.forwarded.Some? ==> h.forwarded.value == Upstream("https://api.openai.com/v1/chat/completions", "POST",
      "Bearer " + apiKey, "application/json", BuildRequest(req.body.systemPrompt, req.body.messages.value))
    ensures h.forwarded.Some? && outcome.Answered? && outcome.json.Some? ==>
      h.response == Response(200, outcome.json.value, Some("application/json"))
    ensures h.forwarded.Some? && (outcome.FetchFailed? || outcome.json.None?) ==>
      h.response == Response(500, "Internal Server Error", None)
  {
    match Decide(req, apiKey)
    case Reject(r) => Handled(r, None)
    case Forward(u) => Handled(Relay(outcome), Some(u))
  }

  /** The upstream credential depends on the server key only: a forwarded
      request carries `Bearer` and the server key upstream, never the caller's
      header, unless the server key happens to be the shared secret itself. */
  lemma UpstreamCredentialIgnoresCaller(req: Request, apiKey: string, outcome: UpstreamOutcome)
    requires Handle(req, apiKey, outcome).forwarded.Some?
    ensures Handle(req, apiKey, outcome).forwarded.value.authorization == "Bearer " + apiKey
    ensures apiKey != "VENKYAI-CHAT-SECRET" ==>
      req.authorization.Some? && Handle(req, apiKey, outcome).forwarded.value.authorization != req.authorization.value
  {
    assert ("Bearer " + apiKey)[7..] == apiKey;
    assert SharedSecretHeader[7..] == "VENKYAI-CHAT-SECRET";
  }

  /** No response the handler can give has a status other than 200, 401, 405
      or 500. */
  lemma StatusesAreFixed(req: Request, apiKey: string, outcome: UpstreamOutcome)
    ensures Handle(req, apiKey, outcome).response.status in {200, 401, 405, 500}
  {
  }

  /** What the browser client would send directly for a history and a prompt is
      exactly what the proxy sends upstream for the same history and prompt. */
  lemma ProxyMatchesDirectClient(history: seq<HistoryEntry>, prompt: string, apiKey: string,
                                 outcome: UpstreamOutcome, provider: ProviderOutcome)
    ensures var req := Request("POST", Some(SharedSecretHeader), Json(Some(ToWire(history)), Some(prompt)));
      Handle(req, apiKey, outcome).forwarded.value.body == GenerateAIResponse(history, Some(prompt), provider).request
  {
  }
}

=== FILE: sessions.dfy ===
/** The chat-session data model and the pure session updates performed inside
    `createNewSession` and `sendMessage` (src/hooks/useChat.ts). Identifiers and
    clock readings are abstract values supplied by the caller. */
module Sessions {
  import opened Completion

  /** An opaque clock reading (`new Date()`). */
  type Instant = int

  /** `'user' | 'ai'`. */
  datatype Sender = User | Ai

  datatype Message = Message(id: string, content: string, sender: Sender, timestamp: Instant)

  datatype Session = Session(id: string, title: string, messages: seq<Message>, createdAt: Instant, updatedAt: Instant)

  const NewChatTitle: string := "New Chat"
  /** Characters of the first message kept in a derived title. */
  const TitleLength: nat := 30
  const Ellipsis: string := "..."

  /** `createNewSession`: an empty session with the placeholder title. */
  function NewSession(id: string, now: Instant): (s: Session)
    ensures s.id == id && s.title == "New Chat" && s.messages == []
    ensures s.createdAt == now && s.updatedAt == now
  {
    Session(id, NewChatTitle, [], now, now)
  }

  /** `content.slice(0, 30) + (content.length > 30 ? '...' : '')`. */
  function DeriveTitle(content: string): (t: string)
    ensures |t| <= TitleLength + |Ellipsis|
    ensures |content| <= TitleLength ==> t == content
    ensures |content| > TitleLength ==> |t| == TitleLength + |Ellipsis|
    ensures |content| > TitleLength ==> t[..TitleLength] == content[..TitleLength] && t[TitleLength..] == Ellipsis
  {
    if |content| > TitleLength then content[..TitleLength] + Ellipsis else content
  }

  /** The user message `sendMessage` appends. */
  function UserMessage(id: string, content: string, at: Instant): Message {
    Message(id, content, User, at)
  }

  /** `updatedSession`: the user turn appended at the end, the title derived from
      it when the session had no messages yet, the update time advanced. */
  function AppendUserTurn(s: Session, m: Message, now: Instant): (r: Session)
    requires m.sender == User
    ensures |r.messages| == |s.messages| + 1
    ensures r.messages[..|s.messages|] == s.messages && r.messages[|s.messages|] == m
    ensures r.id == s.id && r.createdAt == s.createdAt && r.updatedAt == now
    ensures |s.messages| == 0 ==> r.title == DeriveTitle(m.content)
    ensures |s.messages| != 0 ==> r.title == s.title
  {
    s.(messages := s.messages + [m],
       title := if |s.messages| == 0 then DeriveTitle(m.content) else s.title,
       updatedAt := now)
  }

  /** `finalSession` / `errorSession`: one more turn appended, title untouched. */
  function AppendReply(s: Session, m: Message, now: Instant): (r: Session)
    ensures |r.messages| == |s.messages| + 1
    ensures r.messages[..|s.messages|] == s.messages && r.messages[|s.messages|] == m
    ensures r.id == s.id && r.title == s.title && r.createdAt == s.createdAt && r.updatedAt == now
  {
    s.(messages := s.messages + [m], updatedAt := now)
  }

  /** `updatedSession.messages.map(...)`: one history entry per message, same
      order, same content; sender `user` becomes role `user` and every other
      sender becomes role `assistant`. */
  function Transcript(ms: seq<Message>): (h: seq<HistoryEntry>)
    ensures |h| == |ms|
    ensures forall i :: 0 <= i < |ms| ==> h[i].content == ms[i].content
    ensures forall i :: 0 <= i < |ms| ==> (h[i].role == UserRole <==> ms[i].sender == User)
  {
    if ms == [] then [] else [HistoryEntry(if ms[0].sender == User then UserRole else AssistantRole, ms[0].content)] + Transcript(ms[1..])
  }

  /** The transcript of a longer conversation extends the transcript of the
      shorter one: appending a turn appends exactly one history entry. */
  lemma {:induction false} TranscriptAppend(ms: seq<Message>, m: Message)
    ensures Transcript(ms + [m]) == Transcript(ms) + Transcript([m])
    decreases |ms|
  {
    if ms == [] {
      assert ms + [m] == [m];
    } else {
      assert (ms + [m])[1..] == ms[1..] + [m];
      TranscriptAppend(ms[1..], m);
    }
  }

  // ---------------------------------------------------------------------------
  // The in-memory session list

  /** No two sessions of the list share an id. */
  predicate UniqueIds(list: seq<Session>) {
    forall i, j :: 0 <= i < j < |list| ==> list[i].id != list[j].id
  }

  predicate HasId(list: seq<Session>, id: string) {
    exists i :: 0 <= i < |list| && list[i].id == id
  }

  /** `sessions.map(session => session.id === s.id ? s : session)`. */
  function ReplaceById(list: seq<Session>, s: Session): (r: seq<Session>)
    ensures |r| == |list|
    ensures forall i :: 0 <= i < |list| ==> r[i] == (if list[i].id == s.id then s else list[i])
  {
    if list == [] then [] else [if list[0].id == s.id then s else list[0]] + ReplaceById(list[1..], s)
  }

  /** The session-list update at the end of a successful `sendMessage`: every
      entry with the session's id is replaced when there is one, otherwise the
      session is put in front. */
  function UpsertSession(list: seq<Session>, s: Session): (r: seq<Session>)
    ensures HasId(list, s.id) ==> |r| == |list|
    ensures HasId(list, s.id) ==> forall i :: 0 <= i < |list| ==> r[i] == (if list[i].id == s.id then s else list[i])
    ensures !HasId(list, s.id) ==> |r| == |list| + 1 && r[0] == s && r[1..] == list
    ensures s in r
  {
    if HasId(list, s.id) then
      var i :| 0 <= i < |list| && list[i].id == s.id;
      assert ReplaceById(list, s)[i] == s;
      ReplaceById(list, s)
    else [s] + list
  }

  /** The list update keeps ids unique. */
  lemma UpsertKeepsIdsUnique(list: seq<Session>, s: Session)
    requires UniqueIds(list)
    ensures UniqueIds(UpsertSession(list, s))
  {
    var r := UpsertSession(list, s);
    if !HasId(list, s.id) {
      forall i, j | 0 <= i < j < |r|
        ensures r[i].id != r[j].id
      {
        if i == 0 {
          assert r[j] == list[j - 1];
        } else {
          assert r[i] == list[i - 1] && r[j] == list[j - 1];
        }
      }
    }
  }

  // ---------------------------------------------------------------------------
  // Title stability over a whole conversation

  /** One append performed by the session manager. */
  datatype Turn = UserTurn(m: Message, at: Instant) | ReplyTurn(m: Message, at: Instant)

  function ApplyTurn(s: Session, t: Turn): Session {
    match t
    case UserTurn(m, at) => AppendUserTurn(s, m.(sender := User), at)
    case ReplyTurn(m, at) => AppendReply(s, m, at)
  }

  function Replay(s: Session, turns: seq<Turn>): Session
    decreases |turns|
  {
    if turns == [] then s else Replay(ApplyTurn(s, turns[0]), turns[1..])
  }

  /** Any sequence of appends keeps the id, never removes or reorders earlier
      turns, and never changes a title once the session has a message: the
      title of a session that started empty is derived from its first user
      turn and from nothing else. */
  lemma {:induction false} ReplayKeepsHistoryAndTitle(s: Session, turns: seq<Turn>)
    ensures Replay(s, turns).id == s.id
    ensures |Replay(s, turns).messages| == |s.messages| + |turns|
    ensures Replay(s, turns).messages[..|s.messages|] == s.messages
    ensures |s.messages| > 0 ==> Replay(s, turns).title == s.title
    ensures |s.messages| == 0 && turns != [] && turns[0].UserTurn? ==>
      Replay(s, turns).title == DeriveTitle(turns[0].m.content)
    decreases |turns|
  {
    if turns != [] {
      var s1 := ApplyTurn(s, turns[0]);
      ReplayKeepsHistoryAndTitle(s1, turns[1..]);
      assert s1.messages[..|s.messages|] == s.messages;
      assert Replay(s, turns) == Replay(s1, turns[1..]);
      assert Replay(s, turns).messages[..|s.messages|] == s1.messages[..|s1.messages|][..|s.messages|];
    }
  }
}

=== FILE: text.dfy ===
/** String helpers the application relies on: JavaScript's `String.prototype.trim`
    and the lower-casing used to key usernames. */
module Text {

  /** ECMAScript WhiteSpace and LineTerminator code points, which `trim` removes. */
  predicate IsSpace(c: char) {
    || c == '\t' || c == '\n' || c == '\U{B}' || c == '\U{C}' || c == '\r'
    || c == ' ' || c == '\U{A0}' || c == '\U{1680}'
    || ('\U{2000}' <= c <= '\U{200A}')
    || c == '\U{2028}' || c == '\U{2029}' || c == '\U{202F}' || c == '\U{205F}'
    || c == '\U{3000}' || c == '\U{FEFF}'
  }

  /** A string with no removable white space at either end. */
  predicate Trimmed(s: string) {
    s == [] || (!IsSpace(s[0]) && !IsSpace(s[|s| - 1]))
  }

  /** Drops leading white space: the result is a suffix of `s`, everything
      dropped is white space, and the result does not start with white space. */
  function TrimStart(s: string): (r: string)
    ensures |r| <= |s| && r == s[|s| - |r|..]
    ensures forall k :: 0 <= k < |s| - |r| ==> IsSpace(s[k])
    ensures r == [] || !IsSpace(r[0])
  {
    if s == [] || !IsSpace(s[0]) then s else TrimStart(s[1..])
  }

  /** Drops trailing white space: the result is a prefix of `s`, everything
      dropped is white space, and the result does not end with white space. */
  function TrimEnd(s: string): (r: string)
    ensures |r| <= |s| && r == s[..|r|]
    ensures forall k :: |r| <= k < |s| ==> IsSpace(s[k])
    ensures r == [] || !IsSpace(r[|r| - 1])
  {
    if s == [] || !IsSpace(s[|s| - 1]) then s else TrimEnd(s[..|s| - 1])
  }

  /** `s.trim()`; `TrimIsTrimmed` and `TrimIsInfix` say what it returns. */
  function Trim(s: string): (r: string)
    ensures |r| <= |s|
  {
    TrimEnd(TrimStart(s))
  }

  /** Number of leading white-space characters `trim` removes. */
  function LeadingSpace(s: string): nat {
    |s| - |TrimStart(s)|
  }

  /** Whatever `trim` returns is trimmed. */
  lemma TrimIsTrimmed(s: string)
    ensures Trimmed(Trim(s))
  {
    TrimEndKeepsStart(TrimStart(s));
  }

  /** `trim` returns the contiguous piece of the input that starts right after
      its leading white space, and only white space follows that piece. */
  lemma TrimIsInfix(s: string)
    ensures LeadingSpace(s) + |Trim(s)| <= |s|
    ensures Trim(s) == s[LeadingSpace(s)..LeadingSpace(s) + |Trim(s)|]
    ensures forall k :: LeadingSpace(s) + |Trim(s)| <= k < |s| ==> IsSpace(s[k])
  {
    var a := TrimStart(s);
    var r := TrimEnd(a);
    assert Trim(s) == r && LeadingSpace(s) == |s| - |a|;
    InfixOfSuffix(s, a, r);
  }

  /** A prefix `r` of the suffix `a` of `s` sits in `s` right after the part
      `a` dropped, and what `r` leaves of `a` is white space in `s` too. */
  lemma InfixOfSuffix(s: string, a: string, r: string)
    requires |a| <= |s| && a == s[|s| - |a|..]
    requires |r| <= |a| && r == a[..|r|]
    requires forall k :: |r| <= k < |a| ==> IsSpace(a[k])
    ensures r == s[|s| - |a|..|s| - |a| + |r|]
    ensures forall k :: |s| - |a| + |r| <= k < |s| ==> IsSpace(s[k])
  {
    var i := |s| - |a|;
    forall k | i + |r| <= k < |s|
      ensures IsSpace(s[k])
    {
      assert s[k] == a[k - i];
    }
  }

  /** Trimming the end of a string that does not start with white space gives
      a string that does not start with white space either. */
  lemma TrimEndKeepsStart(a: string)
    requires a == [] || !IsSpace(a[0])
    ensures Trimmed(TrimEnd(a))
  {
    var r := TrimEnd(a);
    if r != [] {
      assert r[0] == a[0];
    }
  }

  /** Trimming a trimmed string changes nothing, so trimming is idempotent. */
  lemma TrimOfTrimmed(s: string)
    requires Trimmed(s)
    ensures Trim(s) == s
  {
  }

  lemma TrimIdempotent(s: string)
    ensures Trim(Trim(s)) == Trim(s)
  {
    TrimIsTrimmed(s);
    TrimOfTrimmed(Trim(s));
  }

  predicate IsUpper(c: char) { 'A' <= c <= 'Z' }

  predicate IsLower(c: char) { 'a' <= c <= 'z' }

  /** Lower-cases one ASCII letter and leaves every other character alone. */
  function LowerChar(c: char): char {
    if IsUpper(c) then (c as int + 32) as char else c
  }

  /** `s.toLowerCase()`, restricted to the ASCII letters. */
  function ToLower(s: string): (r: string)
    ensures |r| == |s|
    ensures forall i :: 0 <= i < |s| ==> r[i] == LowerChar(s[i])
  {
    if s == [] then [] else [LowerChar(s[0])] + ToLower(s[1..])
  }

  /** Two characters are the same letter in possibly different case, written
      without reference to `LowerChar`. */
  predicate SameLetter(x: char, y: char) {
    || x == y
    || (IsUpper(x) && IsLower(y) && y as int - x as int == 32)
    || (IsLower(x) && IsUpper(y) && x as int - y as int == 32)
  }

  predicate EqualIgnoringCase(a: string, b: string) {
    |a| == |b| && forall i :: 0 <= i < |a| ==> SameLetter(a[i], b[i])
  }

  lemma LowerCharMatchesSameLetter(x: char, y: char)
    ensures LowerChar(x) == LowerChar(y) <==> SameLetter(x, y)
  {
  }

  /** Lower-casing identifies exactly the strings that differ only in the case
      of their ASCII letters. */
  lemma ToLowerEqualIffEqualIgnoringCase(a: string, b: string)
    ensures ToLower(a) == ToLower(b) <==> EqualIgnoringCase(a, b)
  {
    if ToLower(a) == ToLower(b) {
      forall i | 0 <= i < |a|
        ensures SameLetter(a[i], b[i])
      {
        assert ToLower(a)[i] == ToLower(b)[i];
        LowerCharMatchesSameLetter(a[i], b[i]);
      }
    }
    if EqualIgnoringCase(a, b) {
      forall i | 0 <= i < |a|
        ensures ToLower(a)[i] == ToLower(b)[i]
      {
        LowerCharMatchesSameLetter(a[i], b[i]);
      }
    }
  }

  lemma ToLowerIdempotent(s: string)
    ensures ToLower(ToLower(s)) == ToLower(s)
  {
  }
}

=== FILE: wrappers.dfy ===
/** Failure-carrying values shared by every module of the model: an absent
    JavaScript value (`undefined`/`null`) is `None`, a thrown error is a
    `Failure`. */
module Wrappers {

  datatype Option<+T> = None | Some(value: T) {
    /** The value, or `default` when absent (JavaScript's `x ?? default`). */
    function GetOr(default: T): T {
      match this
      case Some(v) => v
      case None => default
    }
  }

  datatype Result<+R, +E> = Success(value: R) | Failure(error: E)
}
